=== FILE: README.md ===
# Competition-field registry — a Dafny model

This project models `MapleCompetitionField`, the registry a competition robot's
control program uses to track what is on the field and to push it to the dashboard
and the structured log every control cycle. The registry maps each type name
(such as "Note" or "OpponentRobot") to the set of objects of that type. It also holds
one distinguished robot. It offers three mutations (`addObject`, `deleteObject`,
`clearObjectsWithGivenType`) and one projection (`updateObjectsToDashboardAndTelemetry`).

Modules, one per concept:

- `Geometry` (geometry.dfy): planar and spatial poses as plain coordinates.
  `Embed` is the `Pose3d(Pose2d)` embedding at zero elevation. `ToPose2d` is the
  flattening that keeps x, y and yaw. No arithmetic is performed on them.
- `FieldObjects` (field_objects.dfy): a tracked object is a reference
  `ObjectOnField(id, typeName)`. Identity is the `id`, and the type name is fixed
  for the object's lifetime. `Reading` is what an object answers when it is queried in
  a cycle. `Object3d` is a plain `ObjectOnField` with the default `on2dField() == false`.
  `Object2d` is an `ObjectOn2dField` whose `getPose3d()` is derived from its planar pose.
- `Registry` (registry.dfy): the registry as an immutable value. The three mutations
  are pure functions that return the new registry and the operation's answer. A Java
  `null` answer is `None`.
- `Enumeration` (enumeration.dfy): a hash-set or key-set iteration is a sequence that
  lists the set once each, in an order nobody promises.
- `Telemetry` (telemetry.dfy): the publish cycle. The dashboard and log calls are
  returned as a sequence of `Output` records. The loops choose the next element
  freely. Each loop also returns, as a ghost result, the visit order it used, and the
  records are proved to be exactly the rendering `Render` of that order, followed by
  the two robot records.
- `Wrappers` (wrappers.dfy): the `Option` type.

What a cycle queries is a parameter (`Readings`): the `Reading` of every tracked
object, and the planar pose `getPose2d()` reported by an object when it is the
registry's robot. A cycle publishes the pose of the registry's own `robot`, so the
robot records depend on which robot the registry holds. The clock, the dashboard and
the logger are not modelled.

On these points the model follows the code's actual behaviour:

- Clearing a type that was never added returns an empty set and adds **no** key
  (MapleCompetitionField.java:65-66). Keys are added only by `addObject` and are never
  removed, not even by a delete or a clear.
- The type name is not required to be non-empty: `addObject` accepts any string.
- Nothing keeps the robot out of the per-type sets. The robot's channel is also not
  reserved: a type named "Robot" logs its 3D array under "/Field/Robot", the path the
  robot's own pose uses (`Telemetry.RobotLogPathIsTypeRobot`). The two records have
  different payload kinds (an array of 3D poses versus one 2D pose).

## Model

| member | source | states |
|---|---|---|
| Geometry.Embed | src/main/java/frc/robot/utils/CompetitionFieldUtils/MapleCompetitionField.java:31-33 | the 3D pose of a 2D object lies on the floor and flattens back to the 2D pose |
| Geometry.EmbedFlattenRoundTrip | src/main/java/frc/robot/utils/CompetitionFieldUtils/MapleCompetitionField.java:31-33 | embedding after flattening gives the pose back exactly when the pose lies on the floor |
| FieldObjects.Reading.Pose3d | src/main/java/frc/robot/utils/CompetitionFieldUtils/MapleCompetitionField.java:22-33 | a plain object reports its own spatial pose; a 2D object's spatial pose lies on the floor and flattens back to its planar pose |
| FieldObjects.On2dFieldIsLossless | src/main/java/frc/robot/utils/CompetitionFieldUtils/MapleCompetitionField.java:20-37 | the interface defaults: a plain object answers `on2dField() == false` and reports its own spatial pose; a 2D object answers `on2dField() == true` and its spatial pose is the floor embedding of its own planar pose; a flagged reading's spatial pose survives flattening and re-embedding |
| Registry.NewField | src/main/java/frc/robot/utils/CompetitionFieldUtils/MapleCompetitionField.java:42-47 | a new registry holds the given robot and no tracked object |
| Registry.AddObject | src/main/java/frc/robot/utils/CompetitionFieldUtils/MapleCompetitionField.java:49-54 | returns the object; afterwards the object is in its type's set; keys become old keys plus its type; its type's set gains exactly it; every other type is unchanged |
| Registry.DeleteObject | src/main/java/frc/robot/utils/CompetitionFieldUtils/MapleCompetitionField.java:56-62 | returns the object iff it was registered, otherwise None with the registry unchanged; removes exactly it; keys and other types unchanged |
| Registry.ClearObjectsWithGivenType | src/main/java/frc/robot/utils/CompetitionFieldUtils/MapleCompetitionField.java:64-70 | returns the old members of the type; a known type is left mapped to an empty set; an unknown type leaves the registry unchanged with no key added |
| Registry.OperationsKeepFiled | src/main/java/frc/robot/utils/CompetitionFieldUtils/MapleCompetitionField.java:49-70 | add, delete and clear keep every object filed under its own type name |
| Registry.AddIsIdempotent | src/main/java/frc/robot/utils/CompetitionFieldUtils/MapleCompetitionField.java:49-54 | adding a registered object changes nothing, so adding twice equals adding once |
| Registry.AddThenDeleteRestoresMembership | src/main/java/frc/robot/utils/CompetitionFieldUtils/MapleCompetitionField.java:49-62 | deleting a freshly added object returns it and restores every type's membership |
| Registry.DeleteTwiceFindsNothing | src/main/java/frc/robot/utils/CompetitionFieldUtils/MapleCompetitionField.java:56-62 | a second delete of the same object answers None and changes nothing |
| Registry.ClearThenAddStartsEmpty | src/main/java/frc/robot/utils/CompetitionFieldUtils/MapleCompetitionField.java:64-70 | the cleared set is handed back intact, and an object added afterwards is its type's only member |
| Registry.ClearIsIdempotent | src/main/java/frc/robot/utils/CompetitionFieldUtils/MapleCompetitionField.java:64-70 | a second clear hands back an empty set and leaves the registry as the first clear left it |
| Telemetry.LogPath | src/main/java/frc/robot/utils/CompetitionFieldUtils/MapleCompetitionField.java:76 | a type's log channel is "/Field/" followed by the type name |
| Telemetry.LogPathInjective | src/main/java/frc/robot/utils/CompetitionFieldUtils/MapleCompetitionField.java:76 | two types share a log channel iff they have the same name |
| Telemetry.RobotLogPathIsTypeRobot | src/main/java/frc/robot/utils/CompetitionFieldUtils/MapleCompetitionField.java:76-80 | a type's log channel equals the robot's "/Field/Robot" iff the type is named "Robot" |
| Telemetry.OnPlaneIsFilter | src/main/java/frc/robot/utils/CompetitionFieldUtils/MapleCompetitionField.java:86-88 | the 2D filter keeps exactly the visited objects flagged `on2dField()`, no more of them, without repetition |
| Telemetry.Pose2dsFollowOnPlane | src/main/java/frc/robot/utils/CompetitionFieldUtils/MapleCompetitionField.java:83-90 | entry i of the 2D list is the flattened 3D pose of the i-th 2D-flagged object visited |
| Telemetry.Pose3dsFollowOrder | src/main/java/frc/robot/utils/CompetitionFieldUtils/MapleCompetitionField.java:92-94 | entry i of the 3D array is the 3D pose of the i-th object visited |
| Telemetry.Pose2dsArePlanarMembers | src/main/java/frc/robot/utils/CompetitionFieldUtils/MapleCompetitionField.java:83-90 | a set's 2D list has one flattened pose per 2D-flagged member and none for other members, so its length is at most the set size |
| Telemetry.Pose3dsAreAllMembers | src/main/java/frc/robot/utils/CompetitionFieldUtils/MapleCompetitionField.java:92-94 | a set's 3D array has exactly one 3D pose per member, unfiltered |
| Telemetry.GetPose2ds | src/main/java/frc/robot/utils/CompetitionFieldUtils/MapleCompetitionField.java:83-90 | visits every member once; returns the filtered flattened list for that order, of size equal to the number of 2D-flagged members, containing each of their poses |
| Telemetry.GetPose3ds | src/main/java/frc/robot/utils/CompetitionFieldUtils/MapleCompetitionField.java:92-94 | visits every member once; returns one 3D pose per member for that order, containing each member's pose |
| Telemetry.RenderCoversTypes | src/main/java/frc/robot/utils/CompetitionFieldUtils/MapleCompetitionField.java:73-77 | the per-type part of a cycle has two records per type: its layer and its "/Field/" array; nothing else |
| Telemetry.RenderLayerNames | src/main/java/frc/robot/utils/CompetitionFieldUtils/MapleCompetitionField.java:73-75 | the dashboard layers of a cycle are named by the registered types, one each, in the order the key set is visited |
| Telemetry.RenderArrayPaths | src/main/java/frc/robot/utils/CompetitionFieldUtils/MapleCompetitionField.java:73-76 | the 3D arrays of a cycle are logged one per registered type, under "/Field/" + its name, in visit order |
| Telemetry.DistinctChannels | src/main/java/frc/robot/utils/CompetitionFieldUtils/MapleCompetitionField.java:76 | distinct type names never share a log channel |
| Telemetry.PublishTypes | src/main/java/frc/robot/utils/CompetitionFieldUtils/MapleCompetitionField.java:73-77 | the type loop visits every key once and each set once per list, and produces exactly the rendering of those visit orders |
| Telemetry.PublishedRecords | src/main/java/frc/robot/utils/CompetitionFieldUtils/MapleCompetitionField.java:72-81 | a cycle has 2 records per type plus 2; every type's layer and array are among them; the robot's dashboard pose and its "/Field/Robot" record come last and occur nowhere else |
| Telemetry.PublishedChannels | src/main/java/frc/robot/utils/CompetitionFieldUtils/MapleCompetitionField.java:72-81 | the layers set in a cycle list every registered type exactly once, and the 3D arrays are logged once under each type's channel and under no other |
| Telemetry.UpdateObjectsToDashboardAndTelemetry | src/main/java/frc/robot/utils/CompetitionFieldUtils/MapleCompetitionField.java:72-81 | the whole cycle for some visit order: one layer per type, holding its filtered 2D list; one 3D array per type under its own channel; then exactly one robot dashboard update and one "/Field/Robot" record, both carrying the planar pose of the registry's own robot, however many types exist |
| Telemetry.ClearedTypePublishesEmpty | src/main/java/frc/robot/utils/CompetitionFieldUtils/MapleCompetitionField.java:64-75 | after a type is cleared, the next cycle still pushes an empty layer and logs an empty array for it |
| Telemetry.PartitionExample | src/main/java/frc/robot/utils/CompetitionFieldUtils/MapleCompetitionField.java:83-94 | with one 2D object at (1, 2, 0) and one 3D object of the same type, the layer is exactly that one pose while the log array holds both |

## Left out

- The `Field2d` widget and its `SmartDashboard` registration in the constructor, the AdvantageKit `Logger`, and the real dashboard: publishing returns the calls as `Output` records instead.
- Pose numerics: poses are coordinate records with real-valued fields. Angles are opaque, and rotation wrap-around and normalisation are not modelled.
- Implementations that override the interfaces' defaults, such as a plain object that answers `on2dField() == true`. `Reading` models the two default behaviours only.
- Objects that change their type name while registered: the type name is part of the reference and cannot change.
- Hash-map and hash-set iteration order: each loop picks its next element freely and reports the order it used. The records are stated for that order, not for a fixed one.
- Java aliasing of the set returned by a clear: the registry never touches that set again, so a value copy behaves the same.
- Robot wiring, simulation selection, controller bindings and the kinematics smoke test: these are application code that drives the registry, not part of it.
- Telemetry.PublishTypes: its contract ties its records to the visit orders it reports and says nothing more. The record counts and channel facts are stated on `UpdateObjectsToDashboardAndTelemetry`, which calls it.
- The robot's pose is read twice per cycle (MapleCompetitionField.java:79-80). The model reads it once, so both robot records carry the same pose.
- A tracked object's answers are taken as stable within a cycle: one `Reading` per object feeds both the 2D list and the 3D array. The code calls `on2dField()` and `getPose3d()` in `getPose2ds` and `getPose3d()` again in `getPose3ds` (MapleCompetitionField.java:87-88, 93); an object whose pose changes between those calls is not modelled.
- Exceptions thrown by a tracked object's or the robot's methods, and null arguments: every query is assumed to return, and `addObject`/`deleteObject` are never given `null`. A published cycle therefore always completes with 2 records per type plus the 2 robot records. In the code, an exception at MapleCompetitionField.java:75-76 or :79-80 ends the cycle part-way, after the records of the types already visited and without the robot records; a `null` argument throws at :50 or :57.

=== FILE: enumeration.dfy ===
/**
 Iterating a hash-based set or key set visits every element exactly once in an
 order nobody promises. A visit order is modelled as a sequence that lists the
 set without repetition.
 */
module Enumeration {

  /** No element of `s` occurs twice. */
  ghost predicate Distinct<T>(s: seq<T>)
  {
    forall i, j :: 0 <= i < j < |s| ==> s[i] != s[j]
  }

  /** `s` visits every element of `S` exactly once and nothing else. */
  ghost predicate Enumerates<T(!new)>(s: seq<T>, S: set<T>)
  {
    Distinct(s) && forall x :: x in s <==> x in S
  }

  /** A visit order has one step per element. */
  lemma {:induction false} EnumerationLength<T(!new)>(s: seq<T>, S: set<T>)
    requires Enumerates(s, S)
    ensures |s| == |S|
  {
    if |s| > 0 {
      var x := s[|s| - 1];
      var front := s[..|s| - 1];
      assert forall y :: y in front <==> y in S - {x} by {
        forall y ensures y in front <==> y in S - {x} {
          if y in front {
            var i :| 0 <= i < |front| && front[i] == y;
            assert s[i] == y && s[|s| - 1] == x;
          }
          if y in S - {x} {
            assert y in s;
            var i :| 0 <= i < |s| && s[i] == y;
            assert i != |s| - 1;
            assert front[i] == y;
          }
        }
      }
      EnumerationLength(front, S - {x});
    }
  }

  /** Appending an element not yet listed keeps a sequence free of repetition. */
  lemma DistinctSnoc<T>(s: seq<T>, x: T)
    requires Distinct(s)
    requires x !in s
    ensures Distinct(s + [x])
  {
  }
}

=== FILE: field_objects.dfy ===
/**
 The objects tracked on the competition field and the capability interface they
 offer. The registry never owns these objects; it holds references to them and
 queries them for their pose when it publishes.
 */
module FieldObjects {
  import opened Geometry

  type ObjId = nat

  /**
   A reference to a tracked object. Objects are told apart by identity (`id`), and
   each object's type name is fixed for its lifetime, so it is part of the reference.
   */
  datatype ObjectOnField = ObjectOnField(id: ObjId, typeName: string)

  /**
   What a tracked object answers when it is queried during one cycle. `Object3d` is a
   plain object on the field, which reports a spatial pose and keeps the default
   `on2dField() == false`; `Object2d` is an object on the 2D field, which reports a
   planar pose, derives its spatial pose from it and keeps the default
   `on2dField() == true`.
   */
  datatype Reading = Object3d(pose3: Pose3) | Object2d(pose2: Pose2) {

    /** The `on2dField()` capability flag. */
    predicate On2dField()
    {
      Object2d?
    }

    /** The `getPose3d()` answer: computed from the planar pose, never stored. */
    function Pose3d(): (p: Pose3)
      ensures Object2d? ==> OnFloor(p) && ToPose2d(p) == pose2
      ensures Object3d? ==> p == pose3
    {
      match this
      case Object3d(q) => q
      case Object2d(q) => Embed(q)
    }
  }

  /**
   The interface defaults: a plain object is not on the 2D field and reports its own
   spatial pose; an object on the 2D field is flagged so and reports the floor
   embedding of its planar pose, which flattens back without loss.
   */
  lemma On2dFieldIsLossless(r: Reading)
    ensures r.Object3d? ==> !r.On2dField() && r.Pose3d() == r.pose3
    ensures r.Object2d? ==> r.On2dField() && r.Pose3d() == Embed(r.pose2)
    ensures r.On2dField() ==> OnFloor(r.Pose3d()) && Embed(ToPose2d(r.Pose3d())) == r.Pose3d()
  {
  }
}

=== FILE: geometry.dfy ===
/**
 Field poses, kept as plain coordinates. The registry never computes with them: it
 only moves them around and converts between the planar and the spatial form, so
 no arithmetic (and no floating point) is involved. Angles are opaque values; the
 wrap-around a real rotation type performs is not modelled.
 */
module Geometry {

  /** A pose on the field carpet: position and heading. */
  datatype Pose2 = Pose2(x: real, y: real, heading: real)

  /** A pose in space: position and roll/pitch/yaw orientation. */
  datatype Pose3 = Pose3(x: real, y: real, z: real, roll: real, pitch: real, yaw: real)

  /** A spatial pose that lies flat on the carpet: no elevation, no out-of-plane rotation. */
  predicate OnFloor(p: Pose3)
  {
    p.z == 0.0 && p.roll == 0.0 && p.pitch == 0.0
  }

  /** Flattening of a spatial pose: drop elevation and out-of-plane rotation. */
  function ToPose2d(p: Pose3): Pose2
  {
    Pose2(p.x, p.y, p.yaw)
  }

  /** Embedding of a planar pose at zero elevation with identity out-of-plane rotation. */
  function Embed(p: Pose2): (q: Pose3)
    ensures OnFloor(q)
    ensures ToPose2d(q) == p
  {
    Pose3(p.x, p.y, 0.0, 0.0, 0.0, p.heading)
  }

  /** Embedding is the exact inverse of flattening on poses that lie on the floor. */
  lemma EmbedFlattenRoundTrip(q: Pose3)
    ensures OnFloor(q) <==> Embed(ToPose2d(q)) == q
  {
  }
}

=== FILE: registry.dfy ===
/**
 The competition-field registry: a map from type name to the set of objects of that
 type currently on the field, plus the one distinguished robot. Every operation is a
 pure function from the old registry to the new one and the operation's answer.
 Keys are added only by `AddObject` and never removed.
 */
module Registry {
  import opened Wrappers
  import opened FieldObjects

  datatype Field = Field(objectsWithType: map<string, set<ObjectOnField>>, robot: ObjectOnField)

  /** The objects of type `t` on the field; an absent key holds none. */
  function Members(f: Field, t: string): set<ObjectOnField>
  {
    if t in f.objectsWithType then f.objectsWithType[t] else {}
  }

  /** `o` is registered, under its own type name. */
  predicate Contains(f: Field, o: ObjectOnField)
  {
    o.typeName in f.objectsWithType && o in f.objectsWithType[o.typeName]
  }

  /** Every registered object is filed under its own type name. */
  ghost predicate Filed(f: Field)
  {
    forall t, o :: t in f.objectsWithType && o in f.objectsWithType[t] ==> o.typeName == t
  }

  /** The registry as constructed: the robot alone, no tracked objects. */
  function NewField(robot: ObjectOnField): (f: Field)
    ensures f.robot == robot
    ensures |f.objectsWithType| == 0
    ensures Filed(f)
    ensures forall o :: !Contains(f, o)
  {
    Field(map[], robot)
  }

  /**
   `addObject`: insert `o` into the set for its type, creating that set if needed,
   and hand `o` back.
   */
  function AddObject(f: Field, o: ObjectOnField): (r: (Field, ObjectOnField))
    ensures r.1 == o
    ensures r.0.robot == f.robot
    ensures Contains(r.0, o)
    ensures r.0.objectsWithType.Keys == f.objectsWithType.Keys + {o.typeName}
    ensures forall x :: x in Members(r.0, o.typeName) <==> x in Members(f, o.typeName) || x == o
    ensures forall t :: t != o.typeName ==> Members(r.0, t) == Members(f, t)
    ensures forall t :: t in f.objectsWithType && t != o.typeName ==>
      r.0.objectsWithType[t] == f.objectsWithType[t]
  {
    var t := o.typeName;
    var objects := if t in f.objectsWithType then f.objectsWithType[t] else {};
    (f.(objectsWithType := f.objectsWithType[t := objects + {o}]), o)
  }

  /**
   `deleteObject`: remove `o` from the set for its type and hand it back, or answer
   `None` (Java's `null`) when there is no set for its type or `o` is not in it.
   */
  function DeleteObject(f: Field, o: ObjectOnField): (r: (Field, Option<ObjectOnField>))
    ensures r.1.Some? <==> Contains(f, o)
    ensures r.1.Some? ==> r.1.value == o
    ensures r.1.None? ==> r.0 == f
    ensures r.0.robot == f.robot
    ensures r.0.objectsWithType.Keys == f.objectsWithType.Keys
    ensures !Contains(r.0, o)
    ensures Members(r.0, o.typeName) == Members(f, o.typeName) - {o}
    ensures forall t :: t in f.objectsWithType && t != o.typeName ==>
      r.0.objectsWithType[t] == f.objectsWithType[t]
  {
    var t := o.typeName;
    if t !in f.objectsWithType then (f, None)
    else if o in f.objectsWithType[t] then
      (f.(objectsWithType := f.objectsWithType[t := f.objectsWithType[t] - {o}]), Some(o))
    else (f, None)
  }

  /**
   `clearObjectsWithGivenType`: hand back the set stored for `t` and leave an empty
   set in its place. A type that was never added yields an empty set and no key.
   */
  function ClearObjectsWithGivenType(f: Field, t: string): (r: (Field, set<ObjectOnField>))
    ensures r.1 == Members(f, t)
    ensures r.0.robot == f.robot
    ensures r.0.objectsWithType.Keys == f.objectsWithType.Keys
    ensures t in f.objectsWithType ==> r.0.objectsWithType[t] == {}
    ensures t !in f.objectsWithType ==> r.0 == f
    ensures forall u :: u in f.objectsWithType && u != t ==>
      r.0.objectsWithType[u] == f.objectsWithType[u]
  {
    if t !in f.objectsWithType then (f, {})
    else (f.(objectsWithType := f.objectsWithType[t := {}]), f.objectsWithType[t])
  }

  /** Every operation keeps every object filed under its own type name. */
  lemma OperationsKeepFiled(f: Field, o: ObjectOnField, t: string)
    requires Filed(f)
    ensures Filed(AddObject(f, o).0)
    ensures Filed(DeleteObject(f, o).0)
    ensures Filed(ClearObjectsWithGivenType(f, t).0)
  {
  }

  /** Adding an object that is already on the field changes nothing. */
  lemma AddIsIdempotent(f: Field, o: ObjectOnField)
    ensures Contains(f, o) ==> AddObject(f, o).0 == f
    ensures AddObject(AddObject(f, o).0, o).0 == AddObject(f, o).0
  {
    if Contains(f, o) {
      var m := f.objectsWithType;
      assert m[o.typeName] + {o} == m[o.typeName];
      assert m[o.typeName := m[o.typeName] + {o}] == m;
    }
  }

  /** Deleting a freshly added object returns it and restores every type's membership. */
  lemma AddThenDeleteRestoresMembership(f: Field, o: ObjectOnField)
    requires !Contains(f, o)
    ensures DeleteObject(AddObject(f, o).0, o).1 == Some(o)
    ensures forall t :: Members(DeleteObject(AddObject(f, o).0, o).0, t) == Members(f, t)
  {
  }

  /** A second delete of the same object finds nothing. */
  lemma DeleteTwiceFindsNothing(f: Field, o: ObjectOnField)
    ensures DeleteObject(DeleteObject(f, o).0, o) == (DeleteObject(f, o).0, None)
  {
  }

  /**
   Clearing is a snapshot: after clearing `t`, adding an object of type `t` starts
   from an empty set, and the handed-back set still holds the old members.
   */
  lemma ClearThenAddStartsEmpty(f: Field, o: ObjectOnField)
    ensures var (g, drained) := ClearObjectsWithGivenType(f, o.typeName);
      drained == Members(f, o.typeName) && Members(AddObject(g, o).0, o.typeName) == {o}
  {
  }

  /** Clearing twice hands back nothing the second time and leaves the same registry. */
  lemma ClearIsIdempotent(f: Field, t: string)
    ensures var g := ClearObjectsWithGivenType(f, t).0;
      ClearObjectsWithGivenType(g, t) == (g, {})
  {
    var g := ClearObjectsWithGivenType(f, t).0;
    if t in g.objectsWithType {
      assert g.objectsWithType[t := {}] == g.objectsWithType;
    }
  }
}

=== FILE: telemetry.dfy ===
/**
 The per-cycle projection of the registry to the dashboard's 2D field and to the
 structured log. The dashboard and log calls are returned as a sequence of output
 records instead of being performed. Hash-map and hash-set iteration order is not
 promised, so every operation that iterates picks its next element freely and
 reports (as a ghost result) the visit order it used; the records it returns are
 then exactly the rendering of that visit order.
 */
module Telemetry {
  import opened Geometry
  import opened FieldObjects
  import opened Registry
  import opened Enumeration

  /** One call into the dashboard or the log. */
  datatype Output =
    | FieldLayer(name: string, poses: seq<Pose2>)        // the dashboard layer `name` is set to `poses`
    | FieldRobot(pose: Pose2)                           // the dashboard's robot pose is set
    | LogPoses3d(path: string, poses3: seq<Pose3>)       // an array of spatial poses is logged under `path`
    | LogPose2d(path: string, pose: Pose2)              // one planar pose is logged under `path`

  /** What each tracked object answers when queried in this cycle. */
  type Query = ObjectOnField -> Reading

  /**
   The answers of one cycle: what each tracked object reports, and the planar pose
   (`getPose2d()`) each object would report if it is the registry's robot.
   */
  datatype Readings = Readings(tracked: Query, robotPose: ObjectOnField -> Pose2)

  const LogRoot: string := "/Field/"

  /** The log channel of the robot's own pose. */
  const RobotLogPath: string := "/Field/Robot"

  /** The log channel of one type's spatial poses. */
  function LogPath(typeName: string): (p: string)
    ensures |p| == |LogRoot| + |typeName|
    ensures p[..|LogRoot|] == LogRoot && p[|LogRoot|..] == typeName
  {
    LogRoot + typeName
  }

  /** The 2D-flagged objects among `S`. */
  function PlanarMembers(S: set<ObjectOnField>, now: Query): set<ObjectOnField>
  {
    set o | o in S && now(o).On2dField()
  }

  /** The dashboard pose of an object: its spatial pose, flattened. */
  function FlatPose(r: Reading): Pose2
  {
    ToPose2d(r.Pose3d())
  }

  /** The 2D-flagged objects of a visit order, in that order. */
  function OnPlane(order: seq<ObjectOnField>, now: Query): seq<ObjectOnField>
    decreases |order|
  {
    if |order| == 0 then []
    else
      var last := order[|order| - 1];
      OnPlane(order[..|order| - 1], now) + (if now(last).On2dField() then [last] else [])
  }

  /** The 2D list built while visiting `order`: a flattened pose for each 2D-flagged object. */
  function Pose2ds(order: seq<ObjectOnField>, now: Query): seq<Pose2>
    decreases |order|
  {
    if |order| == 0 then []
    else
      var last := now(order[|order| - 1]);
      Pose2ds(order[..|order| - 1], now) + (if last.On2dField() then [FlatPose(last)] else [])
  }

  /** The 3D array built while visiting `order`: every object's spatial pose. */
  function Pose3ds(order: seq<ObjectOnField>, now: Query): seq<Pose3>
    decreases |order|
  {
    if |order| == 0 then []
    else Pose3ds(order[..|order| - 1], now) + [now(order[|order| - 1]).Pose3d()]
  }

  /** Filtering keeps exactly the 2D-flagged objects, in no greater number, free of repetition. */
  lemma {:induction false} OnPlaneIsFilter(order: seq<ObjectOnField>, now: Query)
    ensures forall o :: o in OnPlane(order, now) <==> o in order && now(o).On2dField()
    ensures |OnPlane(order, now)| <= |order|
    ensures Distinct(order) ==> Distinct(OnPlane(order, now))
  {
    if |order| > 0 {
      var front, last := order[..|order| - 1], order[|order| - 1];
      assert order == front + [last];
      OnPlaneIsFilter(front, now);
      if Distinct(order) {
        assert Distinct(front);
        if now(last).On2dField() {
          assert last !in front;
          DistinctSnoc(OnPlane(front, now), last);
        }
      }
    }
  }

  /** The 2D list holds, position by position, the flattened pose of the filtered objects. */
  lemma {:induction false} Pose2dsFollowOnPlane(order: seq<ObjectOnField>, now: Query)
    ensures |Pose2ds(order, now)| == |OnPlane(order, now)|
    ensures forall i :: 0 <= i < |Pose2ds(order, now)| ==>
      Pose2ds(order, now)[i] == FlatPose(now(OnPlane(order, now)[i]))
  {
    if |order| > 0 {
      Pose2dsFollowOnPlane(order[..|order| - 1], now);
    }
  }

  /** The 3D array holds, position by position, the spatial pose of every visited object. */
  lemma {:induction false} Pose3dsFollowOrder(order: seq<ObjectOnField>, now: Query)
    ensures |Pose3ds(order, now)| == |order|
    ensures forall i :: 0 <= i < |order| ==> Pose3ds(order, now)[i] == now(order[i]).Pose3d()
  {
    if |order| > 0 {
      Pose3dsFollowOrder(order[..|order| - 1], now);
    }
  }

  /**
   The 2D list of a set is a partition of its members: one flattened pose per
   2D-flagged member, none for the others.
   */
  lemma Pose2dsArePlanarMembers(order: seq<ObjectOnField>, S: set<ObjectOnField>, now: Query)
    requires Enumerates(order, S)
    ensures Enumerates(OnPlane(order, now), PlanarMembers(S, now))
    ensures |Pose2ds(order, now)| == |OnPlane(order, now)|
    ensures |Pose2ds(order, now)| == |PlanarMembers(S, now)| <= |S|
    ensures forall o :: o in S && now(o).On2dField() ==> FlatPose(now(o)) in Pose2ds(order, now)
    ensures forall i :: 0 <= i < |Pose2ds(order, now)| ==>
      var o := OnPlane(order, now)[i];
      o in S && now(o).On2dField() && Pose2ds(order, now)[i] == FlatPose(now(o))
  {
    var plane := OnPlane(order, now);
    OnPlaneIsFilter(order, now);
    Pose2dsFollowOnPlane(order, now);
    assert Enumerates(plane, PlanarMembers(S, now));
    EnumerationLength(plane, PlanarMembers(S, now));
    EnumerationLength(order, S);
    forall o | o in S && now(o).On2dField() ensures FlatPose(now(o)) in Pose2ds(order, now) {
      assert o in plane;
      var i :| 0 <= i < |plane| && plane[i] == o;
      assert Pose2ds(order, now)[i] == FlatPose(now(o));
    }
    forall i | 0 <= i < |Pose2ds(order, now)|
      ensures plane[i] in S && now(plane[i]).On2dField()
    {
      assert plane[i] in plane;
    }
  }

  /** The 3D array of a set carries one spatial pose per member, unfiltered. */
  lemma Pose3dsAreAllMembers(order: seq<ObjectOnField>, S: set<ObjectOnField>, now: Query)
    requires Enumerates(order, S)
    ensures |Pose3ds(order, now)| == |order| == |S|
    ensures forall o :: o in S ==> now(o).Pose3d() in Pose3ds(order, now)
    ensures forall i :: 0 <= i < |order| ==>
      order[i] in S && Pose3ds(order, now)[i] == now(order[i]).Pose3d()
  {
    Pose3dsFollowOrder(order, now);
    EnumerationLength(order, S);
    forall o | o in S ensures now(o).Pose3d() in Pose3ds(order, now) {
      var i :| 0 <= i < |order| && order[i] == o;
      assert Pose3ds(order, now)[i] == now(o).Pose3d();
    }
  }

  /** One more visited element extends the visit order of what has been visited. */
  lemma VisitStep<T(!new)>(order: seq<T>, all: set<T>, rest: set<T>, x: T)
    requires rest <= all
    requires Enumerates(order, all - rest)
    requires x in rest
    ensures Enumerates(order + [x], all - (rest - {x}))
    ensures (order + [x])[..|order|] == order
  {
  }

  /** `getPose2ds`: visit the set once, keeping the flattened pose of each 2D-flagged object. */
  method GetPose2ds(objects: set<ObjectOnField>, now: Query)
    returns (poses: seq<Pose2>, ghost order: seq<ObjectOnField>)
    ensures Enumerates(order, objects)
    ensures poses == Pose2ds(order, now)
    ensures |poses| == |PlanarMembers(objects, now)| <= |objects|
    ensures forall o :: o in objects && now(o).On2dField() ==> FlatPose(now(o)) in poses
  {
    poses, order := [], [];
    var rest := objects;
    while rest != {}
      invariant rest <= objects
      invariant Enumerates(order, objects - rest)
      invariant poses == Pose2ds(order, now)
      decreases rest
    {
      var o :| o in rest;
      VisitStep(order, objects, rest, o);
      if now(o).On2dField() {
        poses := poses + [FlatPose(now(o))];
      }
      order := order + [o];
      rest := rest - {o};
    }
    assert objects - rest == objects;
    Pose2dsArePlanarMembers(order, objects, now);
  }

  /** `getPose3ds`: visit the set once, keeping every object's spatial pose. */
  method GetPose3ds(objects: set<ObjectOnField>, now: Query)
    returns (poses: seq<Pose3>, ghost order: seq<ObjectOnField>)
    ensures Enumerates(order, objects)
    ensures poses == Pose3ds(order, now)
    ensures |poses| == |objects|
    ensures forall o :: o in objects ==> now(o).Pose3d() in poses
  {
    poses, order := [], [];
    var rest := objects;
    while rest != {}
      invariant rest <= objects
      invariant Enumerates(order, objects - rest)
      invariant poses == Pose3ds(order, now)
      decreases rest
    {
      var o :| o in rest;
      VisitStep(order, objects, rest, o);
      poses := poses + [now(o).Pose3d()];
      order := order + [o];
      rest := rest - {o};
    }
    assert objects - rest == objects;
    Pose3dsAreAllMembers(order, objects, now);
  }

  /** The two records published for one type, given the visit orders of its set. */
  function TypeOutputs(t: string, layerOrder: seq<ObjectOnField>, logOrder: seq<ObjectOnField>, now: Query): seq<Output>
  {
    [FieldLayer(t, Pose2ds(layerOrder, now)), LogPoses3d(LogPath(t), Pose3ds(logOrder, now))]
  }

  /** The per-type records published while visiting the type names in `keys`. */
  function Render(keys: seq<string>, layer: map<string, seq<ObjectOnField>>,
                  log: map<string, seq<ObjectOnField>>, now: Query): seq<Output>
    requires forall t :: t in keys ==> t in layer && t in log
    decreases |keys|
  {
    if |keys| == 0 then []
    else
      var t := keys[|keys| - 1];
      Render(keys[..|keys| - 1], layer, log, now) + TypeOutputs(t, layer[t], log[t], now)
  }

  /** The two records that close every cycle. */
  function RobotOutputs(pose: Pose2): seq<Output>
  {
    [FieldRobot(pose), LogPose2d(RobotLogPath, pose)]
  }

  /** The rendering depends only on the visit orders of the listed types. */
  lemma {:induction false} RenderFrame(keys: seq<string>, layer: map<string, seq<ObjectOnField>>,
                                       log: map<string, seq<ObjectOnField>>,
                                       layer': map<string, seq<ObjectOnField>>,
                                       log': map<string, seq<ObjectOnField>>, now: Query)
    requires forall t :: t in keys ==> t in layer && t in log && t in layer' && t in log'
    requires forall t :: t in keys ==> layer[t] == layer'[t] && log[t] == log'[t]
    ensures Render(keys, layer, log, now) == Render(keys, layer', log', now)
  {
    if |keys| > 0 {
      RenderFrame(keys[..|keys| - 1], layer, log, layer', log', now);
    }
  }

  /** Visiting one more type appends that type's two records to the rendering. */
  lemma RenderStep(keys: seq<string>, layer: map<string, seq<ObjectOnField>>,
                   log: map<string, seq<ObjectOnField>>, t: string,
                   layerOrder: seq<ObjectOnField>, logOrder: seq<ObjectOnField>, now: Query)
    requires forall u :: u in keys ==> u in layer && u in log
    requires t !in keys
    ensures Render(keys + [t], layer[t := layerOrder], log[t := logOrder], now) ==
      Render(keys, layer, log, now) + TypeOutputs(t, layerOrder, logOrder, now)
  {
    assert (keys + [t])[..|keys|] == keys;
    RenderFrame(keys, layer, log, layer[t := layerOrder], log[t := logOrder], now);
  }

  /** Distinct type names log to distinct channels. */
  lemma LogPathInjective(a: string, b: string)
    ensures LogPath(a) == LogPath(b) <==> a == b
  {
  }

  /**
   The robot's log channel is not reserved: a type named "Robot" logs its spatial
   poses under the very path the robot's planar pose is logged under.
   */
  lemma RobotLogPathIsTypeRobot(t: string)
    ensures LogPath(t) == RobotLogPath <==> t == "Robot"
  {
  }

  /** Visiting type names renders one dashboard layer and one log array for each of them, and nothing else. */
  lemma {:induction false} RenderCoversTypes(keys: seq<string>, layer: map<string, seq<ObjectOnField>>,
                                             log: map<string, seq<ObjectOnField>>, now: Query)
    requires forall t :: t in keys ==> t in layer && t in log
    ensures |Render(keys, layer, log, now)| == 2 * |keys|
    ensures forall i :: 0 <= i < |Render(keys, layer, log, now)| ==>
      Render(keys, layer, log, now)[i].FieldLayer? || Render(keys, layer, log, now)[i].LogPoses3d?
    ensures forall t :: t in keys ==>
      FieldLayer(t, Pose2ds(layer[t], now)) in Render(keys, layer, log, now) &&
      LogPoses3d(LogPath(t), Pose3ds(log[t], now)) in Render(keys, layer, log, now)
  {
    if |keys| > 0 {
      var front, t := keys[..|keys| - 1], keys[|keys| - 1];
      RenderCoversTypes(front, layer, log, now);
      var r0 := Render(front, layer, log, now);
      var r := Render(keys, layer, log, now);
      assert r == r0 + TypeOutputs(t, layer[t], log[t], now);
      forall u | u in keys
        ensures FieldLayer(u, Pose2ds(layer[u], now)) in r
        ensures LogPoses3d(LogPath(u), Pose3ds(log[u], now)) in r
      {
        if u != t {
          assert keys == front + [t];
          assert u in front;
        }
      }
    }
  }

  /** The names of the dashboard layers set, in the order they are set. */
  function LayerNames(out: seq<Output>): seq<string>
    decreases |out|
  {
    if |out| == 0 then []
    else
      var last := out[|out| - 1];
      LayerNames(out[..|out| - 1]) + (if last.FieldLayer? then [last.name] else [])
  }

  /** The channels the 3D arrays are logged under, in the order they are logged. */
  function ArrayPaths(out: seq<Output>): seq<string>
    decreases |out|
  {
    if |out| == 0 then []
    else
      var last := out[|out| - 1];
      ArrayPaths(out[..|out| - 1]) + (if last.LogPoses3d? then [last.path] else [])
  }

  /** Layer names and array channels of consecutive records are those of each part, in order. */
  lemma {:induction false} NamesOfConcatenation(a: seq<Output>, b: seq<Output>)
    ensures LayerNames(a + b) == LayerNames(a) + LayerNames(b)
    ensures ArrayPaths(a + b) == ArrayPaths(a) + ArrayPaths(b)
  {
    if |b| == 0 {
      assert a + b == a;
    } else {
      var front := b[..|b| - 1];
      assert (a + b)[..|a + b| - 1] == a + front;
      NamesOfConcatenation(a, front);
    }
  }

  /** The layer name or array channel of a single record. */
  lemma NamesOfOne(o: Output)
    ensures LayerNames([o]) == if o.FieldLayer? then [o.name] else []
    ensures ArrayPaths([o]) == if o.LogPoses3d? then [o.path] else []
  {
  }

  /** The names of two consecutive records. */
  lemma NamesOfTwo(o: Output, o': Output)
    ensures LayerNames([o, o']) == LayerNames([o]) + LayerNames([o'])
    ensures ArrayPaths([o, o']) == ArrayPaths([o]) + ArrayPaths([o'])
  {
  }

  /** The two records of one type set the layer of that name and log under its channel. */
  lemma TypeOutputsNames(t: string, layerOrder: seq<ObjectOnField>, logOrder: seq<ObjectOnField>, now: Query)
    ensures LayerNames(TypeOutputs(t, layerOrder, logOrder, now)) == [t]
    ensures ArrayPaths(TypeOutputs(t, layerOrder, logOrder, now)) == [LogPath(t)]
  {
    var outputs := TypeOutputs(t, layerOrder, logOrder, now);
    NamesOfTwo(outputs[0], outputs[1]);
    NamesOfOne(outputs[0]);
    NamesOfOne(outputs[1]);
  }

  /** The dashboard layers of a cycle are named by the visited types, in visit order. */
  lemma {:induction false} RenderLayerNames(keys: seq<string>, layer: map<string, seq<ObjectOnField>>,
                                            log: map<string, seq<ObjectOnField>>, now: Query)
    requires forall t :: t in keys ==> t in layer && t in log
    ensures LayerNames(Render(keys, layer, log, now)) == keys
  {
    if |keys| > 0 {
      var front, t := keys[..|keys| - 1], keys[|keys| - 1];
      assert keys == front + [t];
      var r0, outputs := Render(front, layer, log, now), TypeOutputs(t, layer[t], log[t], now);
      assert Render(keys, layer, log, now) == r0 + outputs;
      RenderLayerNames(front, layer, log, now);
      NamesOfConcatenation(r0, outputs);
      TypeOutputsNames(t, layer[t], log[t], now);
    }
  }

  /** The 3D arrays of a cycle are logged under the visited types' channels, in visit order. */
  lemma {:induction false} RenderArrayPaths(keys: seq<string>, layer: map<string, seq<ObjectOnField>>,
                                            log: map<string, seq<ObjectOnField>>, now: Query)
    requires forall t :: t in keys ==> t in layer && t in log
    ensures |ArrayPaths(Render(keys, layer, log, now))| == |keys|
    ensures forall k :: 0 <= k < |keys| ==> ArrayPaths(Render(keys, layer, log, now))[k] == LogPath(keys[k])
  {
    if |keys| > 0 {
      var front, t := keys[..|keys| - 1], keys[|keys| - 1];
      var r0, outputs := Render(front, layer, log, now), TypeOutputs(t, layer[t], log[t], now);
      assert Render(keys, layer, log, now) == r0 + outputs;
      RenderArrayPaths(front, layer, log, now);
      NamesOfConcatenation(r0, outputs);
      TypeOutputsNames(t, layer[t], log[t], now);
    }
  }

  /** Distinct type names are logged under distinct channels. */
  lemma DistinctChannels(keys: seq<string>, paths: seq<string>)
    requires Distinct(keys)
    requires |paths| == |keys|
    requires forall k :: 0 <= k < |keys| ==> paths[k] == LogPath(keys[k])
    ensures Distinct(paths)
  {
  }

  /** The robot records set no layer and log no 3D array. */
  lemma RobotOutputsHaveNoNames(pose: Pose2)
    ensures LayerNames(RobotOutputs(pose)) == [] && ArrayPaths(RobotOutputs(pose)) == []
  {
    NamesOfTwo(FieldRobot(pose), LogPose2d(RobotLogPath, pose));
    NamesOfOne(FieldRobot(pose));
    NamesOfOne(LogPose2d(RobotLogPath, pose));
  }

  /**
   The records of a cycle: two per type, the type's layer and 3D array among them,
   and the two robot records last.
   */
  lemma PublishedRecords(K: set<string>, keys: seq<string>, layer: map<string, seq<ObjectOnField>>,
                         log: map<string, seq<ObjectOnField>>, now: Readings, robot: ObjectOnField,
                         out: seq<Output>)
    requires Enumerates(keys, K)
    requires forall t :: t in K ==> t in layer && t in log
    requires out == Render(keys, layer, log, now.tracked) + RobotOutputs(now.robotPose(robot))
    ensures |out| == 2 * |K| + 2
    ensures out[|out| - 2] == FieldRobot(now.robotPose(robot))
    ensures out[|out| - 1] == LogPose2d(RobotLogPath, now.robotPose(robot))
    ensures forall i :: 0 <= i < |out| - 2 ==> out[i].FieldLayer? || out[i].LogPoses3d?
    ensures forall t :: t in K ==>
      FieldLayer(t, Pose2ds(layer[t], now.tracked)) in out &&
      LogPoses3d(LogPath(t), Pose3ds(log[t], now.tracked)) in out
  {
    var body := Render(keys, layer, log, now.tracked);
    RenderCoversTypes(keys, layer, log, now.tracked);
    EnumerationLength(keys, K);
    forall i | 0 <= i < |out| - 2 ensures out[i].FieldLayer? || out[i].LogPoses3d? {
      assert out[i] == body[i];
    }
  }

  /**
   The channels of a cycle: exactly one dashboard layer for every type and no other,
   and exactly one 3D array under every type's channel and no other.
   */
  lemma PublishedChannels(K: set<string>, keys: seq<string>, layer: map<string, seq<ObjectOnField>>,
                          log: map<string, seq<ObjectOnField>>, now: Readings, robot: ObjectOnField,
                         out: seq<Output>)
    requires Enumerates(keys, K)
    requires forall t :: t in K ==> t in layer && t in log
    requires out == Render(keys, layer, log, now.tracked) + RobotOutputs(now.robotPose(robot))
    ensures LayerNames(out) == keys
    ensures Enumerates(LayerNames(out), K)
    ensures |ArrayPaths(out)| == |K| && Distinct(ArrayPaths(out))
    ensures forall t :: t in K ==> LogPath(t) in ArrayPaths(out)
  {
    var body := Render(keys, layer, log, now.tracked);
    EnumerationLength(keys, K);
    RenderLayerNames(keys, layer, log, now.tracked);
    RenderArrayPaths(keys, layer, log, now.tracked);
    NamesOfConcatenation(body, RobotOutputs(now.robotPose(robot)));
    RobotOutputsHaveNoNames(now.robotPose(robot));
    assert ArrayPaths(out) == ArrayPaths(body);
    DistinctChannels(keys, ArrayPaths(body));
    forall t | t in K ensures LogPath(t) in ArrayPaths(out) {
      var k :| 0 <= k < |keys| && keys[k] == t;
      assert ArrayPaths(out)[k] == LogPath(t);
    }
  }

  /** The loop over the type names: one dashboard layer and one 3D array per type. */
  method PublishTypes(f: Field, now: Query)
    returns (out: seq<Output>, ghost keys: seq<string>,
             ghost layer: map<string, seq<ObjectOnField>>, ghost log: map<string, seq<ObjectOnField>>)
    ensures Enumerates(keys, f.objectsWithType.Keys)
    ensures forall t :: t in f.objectsWithType ==>
      t in layer && t in log &&
      Enumerates(layer[t], f.objectsWithType[t]) && Enumerates(log[t], f.objectsWithType[t])
    ensures out == Render(keys, layer, log, now)
  {
    var K := f.objectsWithType.Keys;
    out, keys, layer, log := [], [], map[], map[];
    var rest := K;
    while rest != {}
      invariant rest <= K
      invariant Enumerates(keys, K - rest)
      invariant forall t :: t in keys ==>
        t in layer && t in log && t in f.objectsWithType &&
        Enumerates(layer[t], f.objectsWithType[t]) && Enumerates(log[t], f.objectsWithType[t])
      invariant out == Render(keys, layer, log, now)
      decreases rest
    {
      var t :| t in rest;
      var objects := f.objectsWithType[t];
      var poses2, poses3;
      ghost var order2, order3;
      poses2, order2 := GetPose2ds(objects, now);
      poses3, order3 := GetPose3ds(objects, now);
      VisitStep(keys, K, rest, t);
      RenderStep(keys, layer, log, t, order2, order3, now);
      out := out + [FieldLayer(t, poses2), LogPoses3d(LogPath(t), poses3)];
      layer, log := layer[t := order2], log[t := order3];
      keys := keys + [t];
      rest := rest - {t};
    }
    assert K - rest == K;
  }

  /**
   `updateObjectsToDashboardAndTelemetry`: for every type, push its filtered 2D list
   to the dashboard layer of that name and log its unfiltered 3D array under
   "/Field/" + name; then push the robot's pose to the dashboard and log it under
   "/Field/Robot".
   */
  method UpdateObjectsToDashboardAndTelemetry(f: Field, now: Readings)
    returns (out: seq<Output>, ghost keys: seq<string>,
             ghost layer: map<string, seq<ObjectOnField>>, ghost log: map<string, seq<ObjectOnField>>)
    ensures Enumerates(keys, f.objectsWithType.Keys)
    ensures forall t :: t in f.objectsWithType ==>
      t in layer && t in log &&
      Enumerates(layer[t], f.objectsWithType[t]) && Enumerates(log[t], f.objectsWithType[t])
    ensures out == Render(keys, layer, log, now.tracked) + RobotOutputs(now.robotPose(f.robot))
    ensures |out| == 2 * |f.objectsWithType| + 2
    ensures out[|out| - 2] == FieldRobot(now.robotPose(f.robot))
    ensures out[|out| - 1] == LogPose2d(RobotLogPath, now.robotPose(f.robot))
    ensures forall i :: 0 <= i < |out| - 2 ==> out[i].FieldLayer? || out[i].LogPoses3d?
    ensures Enumerates(LayerNames(out), f.objectsWithType.Keys)
    ensures |ArrayPaths(out)| == |f.objectsWithType| && Distinct(ArrayPaths(out))
    ensures forall t :: t in f.objectsWithType ==> LogPath(t) in ArrayPaths(out)
    ensures forall t :: t in f.objectsWithType ==>
      FieldLayer(t, Pose2ds(layer[t], now.tracked)) in out &&
      LogPoses3d(LogPath(t), Pose3ds(log[t], now.tracked)) in out
  {
    out, keys, layer, log := PublishTypes(f, now.tracked);
    out := out + RobotOutputs(now.robotPose(f.robot));
    PublishedRecords(f.objectsWithType.Keys, keys, layer, log, now, f.robot, out);
    PublishedChannels(f.objectsWithType.Keys, keys, layer, log, now, f.robot, out);
  }

  /**
   After a type is cleared, the next cycle still pushes an empty list to its
   dashboard layer (erasing what was drawn) and logs an empty array for it.
   */
  lemma ClearedTypePublishesEmpty(f: Field, t: string, keys: seq<string>,
                                  layer: map<string, seq<ObjectOnField>>,
                                  log: map<string, seq<ObjectOnField>>, now: Readings)
    requires t in f.objectsWithType
    requires var g := ClearObjectsWithGivenType(f, t).0;
      && Enumerates(keys, g.objectsWithType.Keys)
      && (forall u :: u in g.objectsWithType ==>
            u in layer && u in log &&
            Enumerates(layer[u], g.objectsWithType[u]) && Enumerates(log[u], g.objectsWithType[u]))
    ensures var out := Render(keys, layer, log, now.tracked) + RobotOutputs(now.robotPose(f.robot));
      FieldLayer(t, []) in out && LogPoses3d(LogPath(t), []) in out
  {
    var g := ClearObjectsWithGivenType(f, t).0;
    EnumerationLength(layer[t], {});
    EnumerationLength(log[t], {});
    PublishedRecords(g.objectsWithType.Keys, keys, layer, log, now, f.robot,
                     Render(keys, layer, log, now.tracked) + RobotOutputs(now.robotPose(f.robot)));
  }

  /**
   The partition on a concrete cycle: of two objects of one type, the one on the 2D
   field at (1, 2) with heading 0 is the only entry of the dashboard layer, while the
   log array carries the spatial poses of both.
   */
  lemma PartitionExample(order: seq<ObjectOnField>, now: Query)
    requires var a, b := ObjectOnField(0, "Note"), ObjectOnField(1, "Note");
      && Enumerates(order, {a, b})
      && now(a) == Object2d(Pose2(1.0, 2.0, 0.0))
      && now(b).Object3d?
    ensures Pose2ds(order, now) == [Pose2(1.0, 2.0, 0.0)]
    ensures |Pose3ds(order, now)| == 2
    ensures Embed(Pose2(1.0, 2.0, 0.0)) in Pose3ds(order, now)
    ensures now(ObjectOnField(1, "Note")).pose3 in Pose3ds(order, now)
  {
    var a, b := ObjectOnField(0, "Note"), ObjectOnField(1, "Note");
    Pose2dsArePlanarMembers(order, {a, b}, now);
    Pose3dsAreAllMembers(order, {a, b}, now);
    assert PlanarMembers({a, b}, now) == {a};
    var poses := Pose2ds(order, now);
    assert |poses| == 1;
    assert poses[0] == FlatPose(now(a));
  }
}

=== FILE: wrappers.dfy ===
/** The optional result used where the registry answers with a reference or null. */
module Wrappers {

  /** `None` plays the part of Java's `null` return. */
  datatype Option<+T> = None | Some(value: T)
}
